=== FILE: README.md ===
# Date range picker: the range filter and its input widgets

This project models the core of a date-range search filter. The filter is a
component (`DateRangePicker`) that keeps a canonical selection `{from, to, radio}`. Each field
is a timestamp or preset index, and `-1` (`DEFAULT`) means unset. The component keeps that
selection in step with three other representations:

- two input widgets (`DatePicker`), each wrapping a calendar control behind a `wasReset` flag;
- an optional preset selector;
- a persisted attribute in the search page's state model.

From the selection it derives:

- the query expression;
- the breadcrumb caption;
- the identifiers of its inputs and of the persisted attribute.

Modules:

- `JsValues`: the JavaScript values the code relies on. It covers `undefined`-able values, numbers
  that may be `NaN`, strict inequality `!==` (under which `NaN` differs from itself),
  truthiness and `Math.abs`.
- `Strings`: `join`, a one-character `split` that undoes it, and `_.unique`.
- `DatePicker`: the input widget. It holds a `wasReset` flag in front of the calendar's
  optional date. Every operation returns the new widget and whether the widget's `onChange`
  callback fired. The module also covers option defaulting in the constructor and the year range.
- `RangeFilter`: the values and their pure derivations. These are:
  - acceptance of a persisted record (`handleQueryStateChanged`);
  - `getQuery`, together with a parser that reads the expression back;
  - `handleBuildingQuery`;
  - the breadcrumb caption;
  - `getId`, the persisted attribute's name and the default `id`.
- `DateRangePicker`: the component as a state machine.
  - A `Widget` holds:
    - the canonical selection;
    - the persisted record (`store`);
    - the two input widgets.
  - Every event handler is a function returning the new `Widget` and the ordered list of calls
    it made on its collaborators: `Persist`, `ExecuteQuery`, `ResetInput`, `SilentSetInput`,
    `ResetRadio` and `SetRadio`.
  - The canonical selection is only ever written by the state model's change event. A write to
    the store is therefore followed by `handleQueryStateChanged`. Provided the component's DOM
    was built before the first event reached it (see "Left out"), the invariant `Synced`
    (selection == validated store) holds after every transition.
  - A picker's `reset()` invokes its `onChange`, which is the component's `handleInputChange`.
    That re-entrant call is modelled explicitly.

The library helpers the component calls are fields of `RangeFilter.Helpers` and are taken as
given functions:

- `DateUtils.isValid(new Date(n))`
- `DateUtils.dateForQuery(new Date(n))`
- `new Date(s).getTime()`
- the preset selector's `isValid`

## Model

| member | source | states |
|---|---|---|
| JsValues.Abs | src/DatePicker.ts:110 | `Math.abs` of `undefined` is `NaN`; otherwise the result is non-negative and is the argument or its negation |
| Strings.SplitJoin | src/DateRangePicker.ts:344 | splitting a join on its one-character separator gives back the pieces when no piece contains the separator |
| Strings.JoinAppend | src/DateRangePicker.ts:344 | joining two non-empty lists is joining each and putting one separator between them |
| Strings.Unique | src/DateRangePicker.ts:53 | `_.unique` keeps exactly the elements of its input, each once, in the order of their first occurrences, so the first element stays first |
| Strings.UniquePair | src/DateRangePicker.ts:53 | `_.unique` of two values keeps one when they are equal and both, in order, when they differ |
| DatePicker.Create | src/DatePicker.ts:19 | a new picker starts out marked as reset and holding no date, which is a consistent state |
| DatePicker.GetValue | src/DatePicker.ts:63-69 | the text value is empty after a reset and when the calendar holds no date |
| DatePicker.GetDateValue | src/DatePicker.ts:75-80 | a picker marked as reset reports `null`; any other picker reports the calendar's date, `null` when it holds none |
| DatePicker.Reset | src/DatePicker.ts:45-49 | `reset()` always fires `onChange` and leaves a consistent picker that reports no date |
| DatePicker.SilentReset | src/DatePicker.ts:45-49 | the corrected reset leaves the same picker as `reset()` without firing `onChange` |
| DatePicker.SetValue | src/DatePicker.ts:87-92 | after `setValue(date, p)` the picker reports `date` (under the calendar assumption in "Left out"), and `onChange` fires exactly when `p` is false |
| DatePicker.Select | src/DatePicker.ts:111-114 | a user's pick makes the picker report the picked date and always fires `onChange` |
| DatePicker.ClearWasReset | src/DateRangePicker.ts:505-506 | the owner clearing `wasReset` keeps the calendar's date |
| DatePicker.FreshPickerReportsNothing | src/DatePicker.ts:19 | a fresh picker reports `''` and `null` |
| DatePicker.ResetReportsNothing | src/DatePicker.ts:45-49 | after `reset()` the picker reports `''` and `null` whatever it held |
| DatePicker.SetValueReportsDate | src/DatePicker.ts:87-92 | after `setValue(date, …)` the text value is the formatted `date` |
| DatePicker.ValueFollowsDateValue | src/DatePicker.ts:63-80 | on a consistent picker the text value is the formatted date value, or `''` when there is none |
| DatePicker.ClearWasResetInvisible | src/DateRangePicker.ts:503-506 | clearing `wasReset` changes neither reader on a consistent picker; the date reader is unchanged only on a consistent one |
| DatePicker.Configure | src/DatePicker.ts:30-38 | `onChange`, `firstDay` and `langCode` fall back to their defaults exactly when the supplied value is falsy; the other options are copied as given |
| DatePicker.YearRange | src/DatePicker.ts:110 | the year range brackets the current year at distances `abs(yearsBack)` and `abs(yearsAhead)`; an `undefined` option yields `NaN` |
| RangeFilter.Accept | src/DateRangePicker.ts:417-421 | a field takes the number when it is not `NaN` and passes its check, and is `DEFAULT` otherwise |
| RangeFilter.Validate | src/DateRangePicker.ts:411-434 | every set field of the accepted selection came from the record and passed its check; every field that passes is taken |
| RangeFilter.ValidateToArgs | src/DateRangePicker.ts:411-434 | a selection survives being stored and re-accepted exactly when all its set fields are valid |
| RangeFilter.ValidateIdempotent | src/DateRangePicker.ts:411-434 | accepting an accepted selection again changes nothing |
| RangeFilter.ValidateDefaults | src/DateRangePicker.ts:399-403 | the registered all-`DEFAULT` record is accepted as the empty selection |
| RangeFilter.MalformedRecordIsEmpty | src/DateRangePicker.ts:411-434 | a `NaN` `from`, the sentinel `to` and an unknown preset index give the empty selection |
| RangeFilter.ValidateFieldwise | src/DateRangePicker.ts:411-434 | each field of the accepted selection depends only on the same field of the record |
| RangeFilter.HasEmptyState | src/DateRangePicker.ts:445-447 | a selection is empty exactly when neither bound is set, whatever its preset index |
| RangeFilter.GetQuery | src/DateRangePicker.ts:330-345 | no expression exactly for the empty selection; otherwise the `from` clause, the `to` clause, or both in that order around `AND` |
| RangeFilter.QueryWords | src/DateRangePicker.ts:330-345 | the expression is the three or seven words of its clauses joined by single spaces |
| RangeFilter.QueryRoundTrip | src/DateRangePicker.ts:330-345 | reading the expression back recovers exactly the formatted bounds that are set, when fields and dates contain no space |
| RangeFilter.BuildingQuery | src/DateRangePicker.ts:347-352 | the advanced expression gains one part, the expression, exactly when the selection is not empty, and is otherwise unchanged |
| RangeFilter.CaptionClause | src/DateRangePicker.ts:459-475 | a caption clause is the word and the input's text, or the fixed word and the formatted date when reading the input throws |
| RangeFilter.Caption | src/DateRangePicker.ts:449-489 | no caption exactly for the empty selection; otherwise the `from` clause, the `to` clause, or both in that order around `' - '` |
| RangeFilter.CaptionMatchesQuery | src/DateRangePicker.ts:449-489 | the caption and the expression exist together, and the fallback caption words exactly the bounds that parsing the expression recovers |
| RangeFilter.GetId | src/DateRangePicker.ts:232-234 | the id alone for a missing or empty extra, otherwise the id, `-` and the extra |
| RangeFilter.AttributeName | src/DateRangePicker.ts:397 | the attribute name is the id followed by `:rangePicker` |
| RangeFilter.AttributeNameInjective | src/DateRangePicker.ts:397 | distinct ids give distinct attribute names |
| RangeFilter.InputIdsDistinct | src/DateRangePicker.ts:165-166 | the two input ids and the attribute name of one component are pairwise distinct |
| RangeFilter.DefaultId | src/DateRangePicker.ts:52-54 | a truthy `id` is kept; otherwise the id is the field name when both fields agree and `fieldFrom-fieldTo` when they differ |
| DateRangePicker.InitialState | src/DateRangePicker.ts:150-152 | the component starts with the empty selection, the registered record, consistent pickers and empty inputs |
| DateRangePicker.StateChanged | src/DateRangePicker.ts:404-408 | the change event re-derives the selection from the stored record and touches nothing else |
| DateRangePicker.ExternalChange | src/DateRangePicker.ts:404-434 | an outside write to the record makes no call, leaves the pickers alone and re-synchronises the selection |
| DateRangePicker.ExternalChangeIdempotent | src/DateRangePicker.ts:411-434 | applying the same record twice is applying it once, and the result does not depend on the previous selection |
| DateRangePicker.StoreEchoIsNoOp | src/DateRangePicker.ts:404-408 | writing back the stored record changes nothing, so a change event for an unchanged value is harmless |
| DateRangePicker.OnChange | src/DateRangePicker.ts:308-324 | `onChange` writes the record exactly once, first, and then requests one query exactly when asked; the pickers are untouched and the selection follows the record |
| DateRangePicker.WriteCalls | src/DateRangePicker.ts:308-324 | the calls of `onChange`: exactly one write of the record, followed by the query exactly when asked |
| DateRangePicker.RadioSelect | src/DateRangePicker.ts:384-387 | a preset selection stores the preset's record and makes exactly two calls, the write and then one query; both pickers are left as they were |
| DateRangePicker.ReadInput | src/DateRangePicker.ts:518-519 | an empty text value reads as `DEFAULT`; any other is parsed as a date |
| DateRangePicker.InputChange | src/DateRangePicker.ts:503-527 | the record holds the two inputs and no preset; a query is requested, at most once, exactly when a bound differs (`!==`) from the selection; the preset selector is reset exactly when rendered, before the one write and the query |
| DateRangePicker.Drive | src/DateRangePicker.ts:285 | a picker operation that fires `onChange` leaves exactly the widget and the calls of `handleInputChange` on the installed picker, after the operation's own call; one that does not fire changes only the picker |
| DateRangePicker.ResetInputAsWritten | src/DatePicker.ts:45-49 | a picker's `reset()` leaves it empty with `wasReset` cleared again, stores `DEFAULT` for its bound, and requests a query exactly when that changes a bound |
| DateRangePicker.UserSelect | src/DatePicker.ts:111-114 | a pick installs the date in its picker, writes the record read from both inputs with the preset unset, and requests at most one query, after the write |
| DateRangePicker.ManualEditClearsPreset | src/DateRangePicker.ts:517-526 | a manual pick after a preset clears the preset, keeps the picked bound and requests a query when that bound changes |
| DateRangePicker.RepeatedInputChange | src/DateRangePicker.ts:524 | re-running `handleInputChange` on accepted inputs requests nothing; an input that parses to `NaN` requests a query every time |
| DateRangePicker.ResetInputsAsWritten | src/DateRangePicker.ts:186-187 | the two picker resets leave both pickers empty and start with the `from` reset |
| DateRangePicker.ResetAsWritten | src/DateRangePicker.ts:184-198 | `reset` as written leaves the empty selection, the registered record and two empty, consistent pickers |
| DateRangePicker.ResetAsWrittenCalls | src/DateRangePicker.ts:184-198 | `reset` as written starts with the `from` picker's reset, resets the `to` picker, and ends with the write or the requested query |
| DateRangePicker.Reset | src/DateRangePicker.ts:184-198 | the corrected `reset` empties everything, writes the all-`DEFAULT` record once and requests a query exactly when asked, in the order of `ResetCalls` |
| DateRangePicker.ResetCalls | src/DateRangePicker.ts:184-198 | the corrected calls, in order: both picker resets, the preset reset exactly when rendered, one write, and a query exactly when asked |
| DateRangePicker.ClearBreadcrumb | src/DateRangePicker.ts:499-501 | (corrected) clearing the breadcrumb with `reset(false)` and silent picker resets empties the selection, writes the registered record and requests no query; the code as written does query, see `ResetAsWrittenQueriesAnyway` |
| DateRangePicker.ResetAsWrittenQueriesAnyway | src/DateRangePicker.ts:499-501 | as written, clearing a non-empty selection from the breadcrumb requests a query despite `reset(false)` |
| DateRangePicker.PushBound | src/DateRangePicker.ts:356-368 | (corrected) pushing a bound changes only that picker, to report the bound or nothing for `DEFAULT`, with one silent call: a set bound goes in through `setValue(date, true)` as at lines 360 and 367, and a `DEFAULT` bound through a silent reset where lines 357 and 364 use the firing `reset()` |
| DateRangePicker.PushRadio | src/DateRangePicker.ts:370-374 | `DEFAULT` resets the preset selector; any other index is set on it |
| DateRangePicker.DeferredQuerySuccess | src/DateRangePicker.ts:354-377 | the corrected handler makes the pickers report the selection and mirrors the preset, without writing or querying |
| DateRangePicker.DeferredQuerySuccessIdempotent | src/DateRangePicker.ts:354-377 | pushing the selection out twice is pushing it once |
| DateRangePicker.DeferredQuerySuccessAsWritten | src/DateRangePicker.ts:354-377 | the handler as written keeps the invariant, and agrees with the corrected one when both bounds are set |
| DateRangePicker.DeferredAsWrittenDropsTo | src/DateRangePicker.ts:356-364 | as written, a selection with only `to` set and an empty `to` picker loses `to` and requests a query |
| DateRangePicker.NavigationLosesTo | src/DateRangePicker.ts:354-368 | navigating to a record with only a valid `to` and then finishing the query empties the selection as written, but keeps it with the correction |
| DateRangePicker.Breadcrumb | src/DateRangePicker.ts:449-452 | the component has a breadcrumb exactly when its selection is not empty, exactly when it has a query expression |
| DateRangePicker.BreadcrumbAfterSync | src/DateRangePicker.ts:459-475 | once the selection is pushed into the pickers, the caption read from them equals the fallback caption from formatted dates |
| DateRangePicker.IsActive | src/DateRangePicker.ts:302 | the component is active exactly when either input shows a non-empty text |
| DateRangePicker.TwoEditsScenario | src/DateRangePicker.ts:503-527 | picking `from` then `to` from the start requests one query each and ends with both bounds and no preset |
| DateRangePicker.EditThenPresetScenario | src/DateRangePicker.ts:384-387 | two edits then a preset: one query per action, a two-clause expression after the edits, and the preset's bounds and index after it |

## Left out

- DOM construction, styling and the `coveo-active` and eraser toggles are left out; only the "active" predicate is modelled. This covers `createDom`, `buildFacetContent`, `buildContent`, `buildHeader`, `buildEraser`, `buildInput`, `buildPickerInputSection`, `buildPickerinputRow` and `updateAppearanceDependingOnState`.
- The model assumes that the component's DOM is built before any event reaches it, so every `ensureDom()` call (lines 185, 355, 412 and 511 of src/DateRangePicker.ts) does nothing. The first `ensureDom()` runs `createDom` (lines 172-177), whose two picker resets fire `handleInputChange`. When that first build happens inside a handler, for instance inside `handleQueryStateChanged` on an incoming record, the nested resets write the all-`DEFAULT` record before the handler reads its own. The invariant `Synced` is then not guaranteed, and that nested first build is not modelled.
- Usage-analytics logging and logger calls are left out; they have no bearing on state. The analytics callback passed to `executeQuery` is reduced to the `ExecuteQuery` call.
- `queryController.executeQuery` and the search pipeline are external; they appear only as the `ExecuteQuery` call.
- The `inputChange` event that `handleInputChange` triggers is left out, because its bound handler is empty.
- The calendar control is reduced to the optional date it holds. Its formatting, locale tables and the i18n strings are left out.
- It is assumed that the calendar's `setDate(date)` runs `onSelect` unless told not to, and that `setDate(undefined)` runs nothing. It is also assumed that the calendar keeps the date it is given. Pikaday keeps instead a copy moved to the start of its local day, and ignores an invalid date. Only `getDateValue` would show the difference: `getValue` prints the day alone, so no transition of the component depends on it. The calendar's source is not part of this model.
- Setting the input element's `value` to `''` after a reset is left out as DOM; the picker already reports `''` after a reset.
- The preset selector is not part of this model. Its `reset`, `setValue` and `isValid` are a call each, or a given predicate.
- The timestamps each preset resolves to are an input of `RadioSelect`.
- Only integral numbers are represented, as `NaN | Int`. Timestamps, indexes and years are integral.
- `Number(...)` coercion of strings from the URL is left out: the record holds numbers already. Arbitrary option values and `firstDay` strings are left out too.
- The current year, `DateUtils.isValid`, `DateUtils.dateForQuery` and `new Date(s).getTime()` are parameters. Date arithmetic and time zones are therefore not modelled.
- The localized labels `l('From')` and `l('To')` are configuration strings, `fromWord` and `toWord`. The `try`/`catch` around reading an input is modelled as the caller choosing the fallback, by passing `None`.
- The state model's rule that a change event fires only when the value changed is not modelled: every write re-derives the selection. `StoreEchoIsNoOp` shows that this makes no difference while the invariant holds.
- The `try`/`catch` around clearing `wasReset` in `handleInputChange` is left out: the assignment cannot throw on the pickers modelled here.
- `DatePicker.Configure`: the `format`, `readOnlyInput`, `yearsBack` and `yearsAhead` defaults in the field initialiser are overwritten by the constructor, so they play no part. The model's `format` is an optional string, not a calendar format.

## Findings

| source | as written | input that shows it | evidently intended | confidence | as-written member | corrected member |
|---|---|---|---|---|---|---|
| src/DateRangePicker.ts:499-501 | `handleClearBreadcrumb` calls `reset(false)`, but `reset` calls each picker's `reset()`, which fires `onChange`, i.e. `handleInputChange`, which requests a query whenever a bound changes | any consistent state with `from` or `to` set, then a breadcrumb clear | the explicit `false` passed to `reset` at line 500 and the `executeQuery` parameter documented at line 182 say that this path requests no query | not executed | DateRangePicker.ResetAsWrittenQueriesAnyway | DateRangePicker.ClearBreadcrumb |
| src/DateRangePicker.ts:354-368 | when `from` is unset, `handleDeferredQuerySuccess` resets the `from` picker, firing `handleInputChange`, which rebuilds the record from both pickers before `to` has been pushed; if the `to` picker is empty, `to` is lost and a query is requested | navigate (external write) from the initial state to `{from: -1, to: t, radio: -1}` with a valid `t`, then the query's success event | the silent `setValue(…, true)` at lines 360 and 367 shows that the handler pushes the selection into the pickers without their callbacks firing, so the selection is kept and no query is requested | not executed | DateRangePicker.NavigationLosesTo | DateRangePicker.DeferredQuerySuccess |

Both corrections use `DatePicker.SilentReset`, a reset that does not fire `onChange`.
`DateRangePicker.Reset`, `DateRangePicker.ClearBreadcrumb` and
`DateRangePicker.DeferredQuerySuccess` are proved to keep the selection as intended and to request
queries only as asked.

=== FILE: date_picker.dfy ===
/** The input widget wrapping the calendar control: a `wasReset` flag in front of the date the
    calendar holds. It decides what the widget reports and when its `onChange` callback fires.
    The calendar itself is reduced to the optional date it holds (a timestamp). */
module DatePicker {
  import opened JsValues

  /** The widget's state: `wasReset`, and the calendar's date (`None` when it holds none). */
  datatype Picker = Picker(wasReset: bool, date: Option<int>)

  /** The state an operation leaves behind, and whether it invoked the `onChange` callback. */
  datatype Reaction = Reaction(picker: Picker, firesOnChange: bool)

  /** Every operation keeps this: a picker marked as reset holds no date. */
  predicate Consistent(p: Picker) {
    p.wasReset ==> p.date.None?
  }

  /** A freshly built picker: `wasReset` starts out true and the calendar is empty. */
  function Create(): (p: Picker)
    ensures p.wasReset && p.date.None?
    ensures Consistent(p)
  {
    Picker(true, None)
  }

  /** `getValue()`: the calendar's date formatted by `dateForQuery`, or `''` after a reset or
      when the calendar holds nothing. */
  function GetValue(p: Picker, dateForQuery: int -> string): (s: string)
    ensures p.wasReset || p.date.None? ==> s == ""
  {
    if p.wasReset then ""
    else match p.date
      case Some(d) => dateForQuery(d)
      case None => ""
  }

  /** `getDateValue()`: the calendar's date, or `null` after a reset. */
  function GetDateValue(p: Picker): (d: Option<int>)
    ensures d.Some? ==> !p.wasReset && d == p.date
    ensures !p.wasReset ==> d == p.date
    ensures p.wasReset ==> d.None?
  {
    if p.wasReset then None else p.date
  }

  /** `reset()`: empties the calendar, marks the picker as reset, and always calls `onChange`. */
  function Reset(p: Picker): (r: Reaction)
    ensures r.firesOnChange
    ensures GetDateValue(r.picker) == None
    ensures Consistent(r.picker)
  {
    Reaction(Picker(true, None), true)
  }

  /** A reset that leaves `onChange` alone: the silent counterpart of `Reset`, which the
      corrected handlers use for the writes the component makes itself. */
  function SilentReset(p: Picker): (r: Reaction)
    ensures !r.firesOnChange
    ensures r.picker == Reset(p).picker
  {
    Reaction(Picker(true, None), false)
  }

  /** `setValue(date, preventOnSelect)`: forwards the date and the flag to the calendar's
      `setDate` and clears `wasReset`. The calendar runs its `onSelect` hook, and with it
      `onChange`, unless `preventOnSelect` is set. */
  function SetValue(p: Picker, date: int, preventOnSelect: bool): (r: Reaction)
    ensures GetDateValue(r.picker) == Some(date)
    ensures r.firesOnChange <==> !preventOnSelect
    ensures Consistent(r.picker)
  {
    Reaction(Picker(false, Some(date)), !preventOnSelect)
  }

  /** The calendar's `onSelect` hook after the user picks `date`: the calendar holds the date,
      `wasReset` is cleared, then `onChange` runs. */
  function Select(p: Picker, date: int): (r: Reaction)
    ensures GetDateValue(r.picker) == Some(date)
    ensures r.firesOnChange
    ensures Consistent(r.picker)
  {
    Reaction(Picker(false, Some(date)), true)
  }

  /** The owner writing `wasReset = false` directly. */
  function ClearWasReset(p: Picker): (q: Picker)
    ensures !q.wasReset && q.date == p.date
  {
    p.(wasReset := false)
  }

  /** A fresh picker reports `''` and `null`. */
  lemma FreshPickerReportsNothing(dateForQuery: int -> string)
    ensures GetValue(Create(), dateForQuery) == ""
    ensures GetDateValue(Create()) == None
  {
  }

  /** After `reset()` the picker reports `''` and `null`, whatever the calendar held. */
  lemma ResetReportsNothing(p: Picker, dateForQuery: int -> string)
    ensures GetValue(Reset(p).picker, dateForQuery) == ""
    ensures GetDateValue(Reset(p).picker) == None
  {
  }

  /** After `setValue(date, …)` the text value is `dateForQuery(date)`, whatever came before. */
  lemma SetValueReportsDate(p: Picker, date: int, preventOnSelect: bool, dateForQuery: int -> string)
    ensures GetValue(SetValue(p, date, preventOnSelect).picker, dateForQuery) == dateForQuery(date)
  {
  }

  /** The two readers agree: the text value is the formatted date value, or `''` when there is none. */
  lemma ValueFollowsDateValue(p: Picker, dateForQuery: int -> string)
    requires Consistent(p)
    ensures GetValue(p, dateForQuery)
         == (match GetDateValue(p) case Some(d) => dateForQuery(d) case None => "")
  {
  }

  /** Clearing `wasReset` from outside changes neither reader exactly when the picker is
      consistent, which every operation keeps it. */
  lemma ClearWasResetInvisible(p: Picker, dateForQuery: int -> string)
    ensures Consistent(p) ==> GetValue(ClearWasReset(p), dateForQuery) == GetValue(p, dateForQuery)
    ensures Consistent(p) <==> GetDateValue(ClearWasReset(p)) == GetDateValue(p)
  {
  }

  /** What a caller may supply; `None` is `undefined`. `onChange` is a token for the callback. */
  datatype Supplied<C> = Supplied(
    onChange: Option<C>,
    firstDay: Option<Num>,
    langCode: Option<string>,
    format: Option<string>,
    readOnlyInput: Option<bool>,
    yearsBack: Option<int>,
    yearsAhead: Option<int>)

  /** The callback in effect: the built-in no-op, or the one supplied. */
  datatype Handler<C> = NoOp | Given(callback: C)

  /** The options the picker keeps after construction. */
  datatype Settings<C> = Settings(
    onChange: Handler<C>,
    firstDay: int,
    langCode: string,
    format: Option<string>,
    readOnlyInput: Option<bool>,
    yearsBack: Option<int>,
    yearsAhead: Option<int>)

  const DEFAULT_FIRST_DAY: int := 0
  const DEFAULT_LANG_CODE: string := "en"

  /** The constructor: `onChange`, `firstDay` and `langCode` fall back to the built-in defaults
      when the supplied value is falsy; the rest is copied as given, `undefined` included. */
  function Configure<C>(s: Supplied<C>): (o: Settings<C>)
    ensures s.onChange.Some? <==> o.onChange.Given?
    ensures s.onChange.Some? ==> o.onChange.callback == s.onChange.value
    ensures s.firstDay.Some? && s.firstDay.value.Int? ==> o.firstDay == s.firstDay.value.value
    ensures (s.firstDay.None? || s.firstDay.value.NaN?) ==> o.firstDay == DEFAULT_FIRST_DAY
    ensures o.langCode != ""
    ensures s.langCode.Some? && s.langCode.value != "" ==> o.langCode == s.langCode.value
    ensures (s.langCode.None? || s.langCode.value == "") ==> o.langCode == DEFAULT_LANG_CODE
    ensures o.format == s.format && o.readOnlyInput == s.readOnlyInput
    ensures o.yearsBack == s.yearsBack && o.yearsAhead == s.yearsAhead
  {
    Settings(
      if s.onChange.Some? then Given(s.onChange.value) else NoOp,
      if s.firstDay.Some? && TruthyNum(s.firstDay.value) then s.firstDay.value.value else DEFAULT_FIRST_DAY,
      if s.langCode.Some? && TruthyString(s.langCode.value) then s.langCode.value else DEFAULT_LANG_CODE,
      s.format,
      s.readOnlyInput,
      s.yearsBack,
      s.yearsAhead)
  }

  /** The calendar's selectable years, `[lower, upper]`. */
  datatype YearSpan = YearSpan(lower: Num, upper: Num)

  /** `[currentYear - Math.abs(yearsBack), currentYear + Math.abs(yearsAhead)]`. */
  function YearRange(currentYear: int, yearsBack: Option<int>, yearsAhead: Option<int>): (y: YearSpan)
    ensures yearsBack.None? <==> y.lower.NaN?
    ensures yearsAhead.None? <==> y.upper.NaN?
    ensures y.lower.Int? ==> y.lower.value <= currentYear
    ensures y.lower.Int? ==> currentYear - y.lower.value in {yearsBack.value, -yearsBack.value}
    ensures y.upper.Int? ==> currentYear <= y.upper.value
    ensures y.upper.Int? ==> y.upper.value - currentYear in {yearsAhead.value, -yearsAhead.value}
  {
    YearSpan(Sub(Int(currentYear), Abs(yearsBack)), Add(Int(currentYear), Abs(yearsAhead)))
  }
}

=== FILE: date_range_picker.dfy ===
/** The date range filter component: the canonical selection, the persisted record that feeds
    it, the two input pickers, and every event the component handles, each a transition that
    returns the new state and the ordered list of calls it makes on its collaborators. */
module DateRangePicker {
  import opened JsValues
  import opened RangeFilter
  import DatePicker

  datatype Side = From | To

  /** The calls a transition makes outside its own state, in order. */
  datatype Effect =
    | Persist(args: Args)                  // the state model's `set` of the range attribute
    | ExecuteQuery                         // `queryController.executeQuery(...)`
    | ResetInput(side: Side)               // an input picker's `reset()`
    | SilentSetInput(side: Side, date: int) // an input picker's `setValue(date, true)`
    | ResetRadio                           // the preset selector's `reset()`
    | SetRadio(radio: int)                 // the preset selector's `setValue(radio)`

  /** The component: canonical selection, persisted record, and the two input pickers. */
  datatype Widget = Widget(
    range: Range,
    store: Args,
    fromInput: DatePicker.Picker,
    toInput: DatePicker.Picker)

  /** What a transition leaves behind and the calls it made. */
  datatype Step = Step(widget: Widget, effects: seq<Effect>)

  function Input(w: Widget, side: Side): DatePicker.Picker {
    match side
    case From => w.fromInput
    case To => w.toInput
  }

  function WithInput(w: Widget, side: Side, p: DatePicker.Picker): Widget {
    match side
    case From => w.(fromInput := p)
    case To => w.(toInput := p)
  }

  /** An input's text value, `getValue()`. */
  function Shown(cfg: Config, p: DatePicker.Picker): string {
    DatePicker.GetValue(p, cfg.env.dateForQuery)
  }

  /** The canonical selection is what the persisted record validates to. */
  predicate Synced(cfg: Config, w: Widget) {
    w.range == Validate(cfg.env, w.store)
  }

  /** The invariant every transition keeps. */
  predicate Inv(cfg: Config, w: Widget) {
    && Synced(cfg, w)
    && DatePicker.Consistent(w.fromInput)
    && DatePicker.Consistent(w.toInput)
  }

  /** How many times a call occurs in a list of calls. */
  function Count(es: seq<Effect>, e: Effect): nat
    decreases |es|
  {
    if |es| == 0 then 0 else (if es[0] == e then 1 else 0) + Count(es[1..], e)
  }

  lemma {:induction false} CountAppend(a: seq<Effect>, b: seq<Effect>, e: Effect)
    ensures Count(a + b, e) == Count(a, e) + Count(b, e)
    decreases |a|
  {
    if |a| == 0 {
      assert a + b == b;
    } else {
      CountAppend(a[1..], b, e);
      assert (a + b)[1..] == a[1..] + b;
    }
  }

  lemma CountSingle(x: Effect, e: Effect)
    ensures Count([x], e) == if x == e then 1 else 0
  {
    assert [x][1..] == [];
  }

  lemma {:induction false} CountAbsent(es: seq<Effect>, e: Effect)
    ensures e !in es <==> Count(es, e) == 0
    decreases |es|
  {
    if |es| > 0 {
      CountAbsent(es[1..], e);
      assert es == [es[0]] + es[1..];
    }
  }

  /** How many queries a list of calls requests. */
  function Queries(es: seq<Effect>): nat {
    Count(es, ExecuteQuery)
  }

  /** Every query request comes after some write to the state model: scanning from the
      front, a `Persist` is met before any `ExecuteQuery`. */
  predicate QueriesFollowPersist(es: seq<Effect>)
    decreases |es|
  {
    |es| == 0 || es[0].Persist? || (es[0] != ExecuteQuery && QueriesFollowPersist(es[1..]))
  }

  lemma {:induction false} QueriesFollowPersistAppend(a: seq<Effect>, b: seq<Effect>)
    ensures QueriesFollowPersist(a) && QueriesFollowPersist(b) ==> QueriesFollowPersist(a + b)
    decreases |a|
  {
    if |a| > 0 && !a[0].Persist? {
      QueriesFollowPersistAppend(a[1..], b);
      assert (a + b)[1..] == a[1..] + b;
    } else if |a| == 0 {
      assert a + b == b;
    }
  }

  /** A list without query requests trivially keeps the order. */
  lemma {:induction false} NoQueriesFollowPersist(es: seq<Effect>)
    ensures ExecuteQuery !in es ==> QueriesFollowPersist(es)
    decreases |es|
  {
    if |es| > 0 && ExecuteQuery !in es {
      assert es[0] != ExecuteQuery;
      assert ExecuteQuery !in es[1..] by {
        forall e | e in es[1..] ensures e in es { }
      }
      NoQueriesFollowPersist(es[1..]);
    }
  }

  /** The component as constructed: everything unset, the attribute registered with the
      all-`DEFAULT` record, both pickers fresh. */
  function Init(): Widget {
    Widget(EMPTY, DEFAULT_ARGS, DatePicker.Create(), DatePicker.Create())
  }

  lemma InitialState(cfg: Config)
    ensures Inv(cfg, Init())
    ensures HasEmptyState(Init().range)
    ensures Shown(cfg, Init().fromInput) == "" && Shown(cfg, Init().toInput) == ""
  {
    ValidateDefaults(cfg.env);
  }

  /** The state model's change event for the attribute: `handleQueryStateChanged` reads the
      new record and sets the canonical selection from it alone. */
  function StateChanged(cfg: Config, w: Widget): (v: Widget)
    ensures Synced(cfg, v)
    ensures v.store == w.store && v.fromInput == w.fromInput && v.toInput == w.toInput
  {
    w.(range := Validate(cfg.env, w.store))
  }

  /** A write to the persisted attribute from outside the component (navigation, a shared
      link): the record changes and the change event follows. No call is made. */
  function ExternalChange(cfg: Config, w: Widget, a: Args): (s: Step)
    ensures s.effects == []
    ensures s.widget.store == a && Synced(cfg, s.widget)
    ensures s.widget.fromInput == w.fromInput && s.widget.toInput == w.toInput
    ensures Inv(cfg, w) ==> Inv(cfg, s.widget)
  {
    Step(StateChanged(cfg, w.(store := a)), [])
  }

  /** Applying the same persisted record twice is applying it once; the result does not depend
      on the selection held before. */
  lemma ExternalChangeIdempotent(cfg: Config, w: Widget, v: Widget, a: Args)
    ensures ExternalChange(cfg, ExternalChange(cfg, w, a).widget, a) == ExternalChange(cfg, w, a)
    ensures ExternalChange(cfg, w, a).widget.range == ExternalChange(cfg, v, a).widget.range
  {
  }

  /** Writing back the record already stored changes nothing, so it does not matter whether
      the state model raises its change event for an unchanged value. */
  lemma StoreEchoIsNoOp(cfg: Config, w: Widget)
    requires Synced(cfg, w)
    ensures ExternalChange(cfg, w, w.store).widget == w
  {
  }

  /** `onChange(range, cause, executeQuery)`: writes the record to the state model (whose
      change event re-validates the selection), then requests a query if asked to. */
  function OnChange(cfg: Config, w: Widget, a: Args, executeQuery: bool): (s: Step)
    ensures s.widget.store == a && Synced(cfg, s.widget)
    ensures s.widget.fromInput == w.fromInput && s.widget.toInput == w.toInput
    ensures |s.effects| >= 1 && s.effects[0] == Persist(a)
    ensures Queries(s.effects) == if executeQuery then 1 else 0
    ensures forall e :: e in s.effects ==> e == Persist(a) || e == ExecuteQuery
    ensures QueriesFollowPersist(s.effects)
    ensures s.effects == WriteCalls(a, executeQuery)
    ensures Inv(cfg, w) ==> Inv(cfg, s.widget)
  {
    Step(StateChanged(cfg, w.(store := a)), WriteCalls(a, executeQuery))
  }

  /** The calls `onChange` makes: one write of the record, then the query if asked for. */
  function WriteCalls(a: Args, executeQuery: bool): (es: seq<Effect>)
    ensures |es| >= 1 && es[0] == Persist(a)
    ensures es[|es| - 1] == if executeQuery then ExecuteQuery else Persist(a)
    ensures Count(es, Persist(a)) == 1
    ensures Queries(es) == if executeQuery then 1 else 0
    ensures forall e :: e in es ==> e == Persist(a) || e == ExecuteQuery
    ensures QueriesFollowPersist(es)
  {
    var query := if executeQuery then [ExecuteQuery] else [];
    CountAbsent(query, Persist(a));
    CountAppend([Persist(a)], query, ExecuteQuery);
    CountAppend([Persist(a)], query, Persist(a));
    CountSingle(Persist(a), ExecuteQuery);
    CountSingle(Persist(a), Persist(a));
    CountSingle(ExecuteQuery, ExecuteQuery);
    [Persist(a)] + query
  }

  /** A preset selection: `onChange` with the preset's record, always requesting a query. */
  function RadioSelect(cfg: Config, w: Widget, a: Args): (s: Step)
    ensures s.widget.store == a && s.widget.range == Validate(cfg.env, a)
    ensures |s.effects| >= 1 && s.effects[0] == Persist(a)
    ensures Queries(s.effects) == 1
    ensures QueriesFollowPersist(s.effects)
    ensures s.widget.fromInput == w.fromInput && s.widget.toInput == w.toInput
    ensures s.effects == [Persist(a), ExecuteQuery]
    ensures Inv(cfg, w) ==> Inv(cfg, s.widget)
  {
    OnChange(cfg, w, a, true)
  }

  /** One side of the record `handleInputChange` builds: `DEFAULT` for an empty text value,
      otherwise the parsed timestamp (possibly `NaN`). */
  function ReadInput(cfg: Config, p: DatePicker.Picker): (n: Num)
    ensures Shown(cfg, p) == "" ==> n == Int(DEFAULT)
    ensures Shown(cfg, p) != "" ==> n == cfg.env.parseTime(Shown(cfg, p))
  {
    var text := Shown(cfg, p);
    if TruthyString(text) then cfg.env.parseTime(text) else Int(DEFAULT)
  }

  /** `handleInputChange`: clears both pickers' `wasReset`, resets the preset selector when it
      is rendered, builds the record from the two inputs with `radio` unset, and calls
      `onChange`, requesting a query exactly when a bound differs (`!==`) from the canonical one. */
  function InputChange(cfg: Config, w: Widget): (s: Step)
    ensures s.widget.fromInput == DatePicker.ClearWasReset(w.fromInput)
    ensures s.widget.toInput == DatePicker.ClearWasReset(w.toInput)
    ensures s.widget.store.from == ReadInput(cfg, s.widget.fromInput)
    ensures s.widget.store.to == ReadInput(cfg, s.widget.toInput)
    ensures s.widget.store.radio == Int(DEFAULT) && s.widget.range.radio == DEFAULT
    ensures Synced(cfg, s.widget)
    ensures Persist(s.widget.store) in s.effects
    ensures Queries(s.effects) <= 1
    ensures Queries(s.effects) == 1
        <==> StrictNe(s.widget.store.from, Int(w.range.from)) || StrictNe(s.widget.store.to, Int(w.range.to))
    ensures ResetRadio in s.effects <==> cfg.radioEnabled
    ensures QueriesFollowPersist(s.effects)
    ensures s.effects == (if cfg.radioEnabled then [ResetRadio] else [])
      + WriteCalls(s.widget.store, StrictNe(s.widget.store.from, Int(w.range.from)) || StrictNe(s.widget.store.to, Int(w.range.to)))
    ensures Inv(cfg, w) ==> Inv(cfg, s.widget)
  {
    var cleared := w.(fromInput := DatePicker.ClearWasReset(w.fromInput),
                      toInput := DatePicker.ClearWasReset(w.toInput));
    var radio := if cfg.radioEnabled then [ResetRadio] else [];
    var a := Args(ReadInput(cfg, cleared.fromInput), ReadInput(cfg, cleared.toInput), Int(DEFAULT));
    var executeQuery := StrictNe(a.from, Int(w.range.from)) || StrictNe(a.to, Int(w.range.to));
    var s := OnChange(cfg, cleared, a, executeQuery);
    assert s.effects[0] in s.effects;
    assert forall i :: 0 <= i < |radio| ==> radio[i] == ResetRadio;
    QueriesFollowPersistAppend(radio, s.effects);
    CountAppend(radio, s.effects, ExecuteQuery);
    CountSingle(ResetRadio, ExecuteQuery);
    Step(s.widget, radio + s.effects)
  }

  /** Installs the picker an operation left behind and, when the operation fired the picker's
      `onChange`, runs the component's callback for it, `handleInputChange`. */
  function Drive(cfg: Config, w: Widget, side: Side, r: DatePicker.Reaction, call: seq<Effect>): (s: Step)
    ensures !r.firesOnChange ==> s == Step(WithInput(w, side, r.picker), call)
    ensures r.firesOnChange ==> Synced(cfg, s.widget)
    ensures r.firesOnChange ==> s == Step(InputChange(cfg, WithInput(w, side, r.picker)).widget,
                                          call + InputChange(cfg, WithInput(w, side, r.picker)).effects)
    ensures QueriesFollowPersist(call) ==> QueriesFollowPersist(s.effects)
    ensures Queries(s.effects) == Queries(call)
      + if r.firesOnChange then Queries(InputChange(cfg, WithInput(w, side, r.picker)).effects) else 0
    ensures Inv(cfg, w) && DatePicker.Consistent(r.picker) ==> Inv(cfg, s.widget)
  {
    var installed := WithInput(w, side, r.picker);
    if r.firesOnChange then
      var s := InputChange(cfg, installed);
      QueriesFollowPersistAppend(call, s.effects);
      CountAppend(call, s.effects, ExecuteQuery);
      Step(s.widget, call + s.effects)
    else Step(installed, call)
  }

  /** A picker's `reset()` as the component calls it: the picker's own `onChange` fires, so
      `handleInputChange` runs inside it. */
  function ResetInputAsWritten(cfg: Config, w: Widget, side: Side): (s: Step)
    ensures Input(s.widget, side) == DatePicker.Picker(false, None)
    ensures side == From ==> s.widget.toInput == DatePicker.ClearWasReset(w.toInput)
    ensures side == To ==> s.widget.fromInput == DatePicker.ClearWasReset(w.fromInput)
    ensures |s.effects| >= 1 && s.effects[0] == ResetInput(side)
    ensures Synced(cfg, s.widget)
    ensures s.widget.store.from == Int(DEFAULT) || side == To
    ensures s.widget.store.to == Int(DEFAULT) || side == From
    ensures Queries(s.effects) == 1 <==> (
      || (side == From && (w.range.from != DEFAULT || StrictNe(s.widget.store.to, Int(w.range.to))))
      || (side == To && (w.range.to != DEFAULT || StrictNe(s.widget.store.from, Int(w.range.from)))))
    ensures Inv(cfg, w) ==> Inv(cfg, s.widget)
  {
    CountSingle(ResetInput(side), ExecuteQuery);
    Drive(cfg, w, side, DatePicker.Reset(Input(w, side)), [ResetInput(side)])
  }

  /** A user's pick of `date` in one of the calendars: the picker's `onSelect` hook runs
      `handleInputChange`. */
  function UserSelect(cfg: Config, w: Widget, side: Side, date: int): (s: Step)
    ensures DatePicker.GetDateValue(Input(s.widget, side)) == Some(date)
    ensures Input(s.widget, side) == DatePicker.Picker(false, Some(date))
    ensures Persist(s.widget.store) in s.effects && s.widget.store.radio == Int(DEFAULT)
    ensures s.widget.store.from == ReadInput(cfg, s.widget.fromInput)
    ensures s.widget.store.to == ReadInput(cfg, s.widget.toInput)
    ensures s.widget.range.radio == DEFAULT
    ensures Synced(cfg, s.widget)
    ensures Queries(s.effects) <= 1
    ensures QueriesFollowPersist(s.effects)
    ensures Inv(cfg, w) ==> Inv(cfg, s.widget)
  {
    Drive(cfg, w, side, DatePicker.Select(Input(w, side), date), [])
  }

  /** A manual pick after a preset clears the preset, keeps the picked bound when it parses
      back to a valid date, and requests a query exactly when that changes a bound. */
  lemma ManualEditClearsPreset(cfg: Config, w: Widget, date: int, t: int)
    requires cfg.env.parseTime(cfg.env.dateForQuery(date)) == Int(t)
    requires cfg.env.isValidDate(t) && cfg.env.dateForQuery(date) != ""
    ensures var s := UserSelect(cfg, w, From, date);
      && s.widget.range.radio == DEFAULT
      && s.widget.range.from == t
      && s.widget.store.from == Int(t)
      && DatePicker.GetDateValue(s.widget.fromInput) == Some(date)
      && (t != w.range.from ==> Queries(s.effects) == 1)
  {
    var p := DatePicker.Select(w.fromInput, date).picker;
    assert Shown(cfg, DatePicker.ClearWasReset(p)) == cfg.env.dateForQuery(date);
  }

  /** Running `handleInputChange` again on unchanged inputs requests no query when both inputs
      read back as values the selection accepts; an input that parses to `NaN` requests one
      every time, because `NaN !== NaN`. */
  lemma RepeatedInputChange(cfg: Config, w: Widget)
    ensures var s1 := InputChange(cfg, w);
            var s2 := InputChange(cfg, s1.widget);
      && (ToArgs(s1.widget.range) == s1.widget.store ==> Queries(s2.effects) == 0 && s2.widget == s1.widget)
      && (s1.widget.store.from.NaN? ==> Queries(s2.effects) == 1)
  {
    var s1 := InputChange(cfg, w);
    assert DatePicker.ClearWasReset(s1.widget.fromInput) == s1.widget.fromInput;
    assert DatePicker.ClearWasReset(s1.widget.toInput) == s1.widget.toInput;
  }

  /** The two picker resets `reset` starts with, as written: each picker ends empty with
      `wasReset` cleared again by the callback it fired. */
  function ResetInputsAsWritten(cfg: Config, w: Widget): (s: Step)
    ensures s.widget.fromInput == DatePicker.Picker(false, None)
    ensures s.widget.toInput == DatePicker.Picker(false, None)
    ensures Synced(cfg, s.widget)
    ensures |s.effects| >= 1 && s.effects[0] == ResetInput(From) && ResetInput(To) in s.effects
  {
    var s1 := ResetInputAsWritten(cfg, w, From);
    var s2 := ResetInputAsWritten(cfg, s1.widget, To);
    var es := s1.effects + s2.effects;
    assert es[|s1.effects|] == ResetInput(To);
    Step(s2.widget, es)
  }

  /** `reset(executeQuery)` as written: each picker's `reset()` runs `handleInputChange`
      inside it, then the preset selector is reset when rendered and the all-`DEFAULT` record
      goes through `onChange`. The component ends empty either way. */
  function ResetAsWritten(cfg: Config, w: Widget, executeQuery: bool): (s: Step)
    ensures s.widget.range == EMPTY && s.widget.store == DEFAULT_ARGS
    ensures Shown(cfg, s.widget.fromInput) == "" && Shown(cfg, s.widget.toInput) == ""
    ensures DatePicker.GetDateValue(s.widget.fromInput) == None
    ensures DatePicker.GetDateValue(s.widget.toInput) == None
    ensures Inv(cfg, s.widget)
  {
    var s12 := ResetInputsAsWritten(cfg, w);
    var radio := if cfg.radioEnabled then [ResetRadio] else [];
    var s3 := OnChange(cfg, s12.widget, DEFAULT_ARGS, executeQuery);
    ValidateDefaults(cfg.env);
    Step(s3.widget, s12.effects + radio + s3.effects)
  }

  /** The calls `reset(executeQuery)` makes as written: it starts with the `from` picker's
      reset, resets the `to` picker too, and ends with the write of the all-`DEFAULT` record or
      with the query requested after it. */
  lemma ResetAsWrittenCalls(cfg: Config, w: Widget, executeQuery: bool)
    ensures var es := ResetAsWritten(cfg, w, executeQuery).effects;
      && |es| >= 1 && es[0] == ResetInput(From) && ResetInput(To) in es
      && es[|es| - 1] == (if executeQuery then ExecuteQuery else Persist(DEFAULT_ARGS))
      && (executeQuery ==> Queries(es) >= 1)
  {
    var s12 := ResetInputsAsWritten(cfg, w);
    var radio := if cfg.radioEnabled then [ResetRadio] else [];
    var tail := WriteCalls(DEFAULT_ARGS, executeQuery);
    var es := s12.effects + radio + tail;
    assert es == ResetAsWritten(cfg, w, executeQuery).effects;
    assert es[0] == s12.effects[0];
    assert ResetInput(To) in s12.effects;
    assert es[|es| - 1] == tail[|tail| - 1];
    CountAppend(s12.effects + radio, tail, ExecuteQuery);
  }

  /** `reset(executeQuery)` with the pickers reset silently: the pickers and the preset
      selector are reset, the all-`DEFAULT` record is written once, and a query is requested
      exactly when asked for. */
  function Reset(cfg: Config, w: Widget, executeQuery: bool): (s: Step)
    ensures s.widget.range == EMPTY && s.widget.store == DEFAULT_ARGS
    ensures Shown(cfg, s.widget.fromInput) == "" && Shown(cfg, s.widget.toInput) == ""
    ensures DatePicker.GetDateValue(s.widget.fromInput) == None
    ensures DatePicker.GetDateValue(s.widget.toInput) == None
    ensures Inv(cfg, s.widget)
    ensures |s.effects| >= 2 && s.effects[0] == ResetInput(From) && s.effects[1] == ResetInput(To)
    ensures ResetRadio in s.effects <==> cfg.radioEnabled
    ensures Count(s.effects, Persist(DEFAULT_ARGS)) == 1
    ensures forall e :: e in s.effects && e.Persist? ==> e == Persist(DEFAULT_ARGS)
    ensures Queries(s.effects) == if executeQuery then 1 else 0
    ensures QueriesFollowPersist(s.effects)
    ensures s.effects == ResetCalls(cfg.radioEnabled, executeQuery)
  {
    var cleared := w.(fromInput := DatePicker.SilentReset(w.fromInput).picker,
                      toInput := DatePicker.SilentReset(w.toInput).picker);
    var resets := [ResetInput(From), ResetInput(To)] + (if cfg.radioEnabled then [ResetRadio] else []);
    var s := OnChange(cfg, cleared, DEFAULT_ARGS, executeQuery);
    ValidateDefaults(cfg.env);
    assert resets + s.effects == ResetCalls(cfg.radioEnabled, executeQuery);
    Step(s.widget, resets + s.effects)
  }

  /** The calls of a silent `reset(executeQuery)`, in order. */
  function ResetCalls(radioEnabled: bool, executeQuery: bool): (es: seq<Effect>)
    ensures |es| >= 2 && es[0] == ResetInput(From) && es[1] == ResetInput(To)
    ensures ResetRadio in es <==> radioEnabled
    ensures Count(es, Persist(DEFAULT_ARGS)) == 1
    ensures forall e :: e in es && e.Persist? ==> e == Persist(DEFAULT_ARGS)
    ensures Queries(es) == if executeQuery then 1 else 0
    ensures QueriesFollowPersist(es)
    ensures es == [ResetInput(From), ResetInput(To)] + (if radioEnabled then [ResetRadio] else [])
      + WriteCalls(DEFAULT_ARGS, executeQuery)
  {
    var resets := [ResetInput(From), ResetInput(To)] + (if radioEnabled then [ResetRadio] else []);
    var tail := WriteCalls(DEFAULT_ARGS, executeQuery);
    NoQueriesFollowPersist(resets);
    QueriesFollowPersistAppend(resets, tail);
    CountAbsent(resets, ExecuteQuery);
    CountAbsent(resets, Persist(DEFAULT_ARGS));
    CountAppend(resets, tail, ExecuteQuery);
    CountAppend(resets, tail, Persist(DEFAULT_ARGS));
    resets + tail
  }

  /** `handleClearBreadcrumb`: `reset(false)`, which leaves the component empty and requests
      no query. */
  function ClearBreadcrumb(cfg: Config, w: Widget): (s: Step)
    ensures HasEmptyState(s.widget.range) && s.widget.store == DEFAULT_ARGS
    ensures Queries(s.effects) == 0
    ensures Persist(DEFAULT_ARGS) in s.effects
  {
    Reset(cfg, w, false)
  }

  /** `reset(false)` as written requests a query whenever the selection was not empty: the
      first picker reset whose callback sees a bound disappear asks for one. */
  lemma ResetAsWrittenQueriesAnyway(cfg: Config, w: Widget)
    requires Inv(cfg, w) && !HasEmptyState(w.range)
    ensures Queries(ResetAsWritten(cfg, w, false).effects) >= 1
  {
    var s1 := ResetInputAsWritten(cfg, w, From);
    var s2 := ResetInputAsWritten(cfg, s1.widget, To);
    var s12 := ResetInputsAsWritten(cfg, w);
    var radio := if cfg.radioEnabled then [ResetRadio] else [];
    var s3 := OnChange(cfg, s12.widget, DEFAULT_ARGS, false);
    CountAppend(s1.effects, s2.effects, ExecuteQuery);
    CountAppend(s12.effects, radio, ExecuteQuery);
    CountAppend(s12.effects + radio, s3.effects, ExecuteQuery);
    if Queries(s1.effects) == 0 {
      assert w.range.from == DEFAULT && s1.widget.store.to == Int(w.range.to);
      assert s1.widget.range.to == w.range.to;
      assert Queries(s2.effects) == 1;
    }
  }

  /** One bound pushed into its picker without firing it: a silent reset for `DEFAULT`,
      otherwise `setValue(new Date(bound), true)`. */
  function PushBound(cfg: Config, w: Widget, side: Side, bound: int): (s: Step)
    ensures s.widget == WithInput(w, side, Input(s.widget, side))
    ensures DatePicker.GetDateValue(Input(s.widget, side)) == if bound == DEFAULT then None else Some(bound)
    ensures DatePicker.Consistent(Input(s.widget, side))
    ensures s.effects == [if bound == DEFAULT then ResetInput(side) else SilentSetInput(side, bound)]
  {
    if bound == DEFAULT then
      Drive(cfg, w, side, DatePicker.SilentReset(Input(w, side)), [ResetInput(side)])
    else
      Drive(cfg, w, side, DatePicker.SetValue(Input(w, side), bound, true), [SilentSetInput(side, bound)])
  }

  /** The preset selector call that mirrors the canonical preset. */
  function PushRadio(radio: int): (e: Effect)
    ensures e == ResetRadio <==> radio == DEFAULT
    ensures e.SetRadio? <==> radio != DEFAULT
    ensures e.SetRadio? ==> e.radio == radio
  {
    if radio == DEFAULT then ResetRadio else SetRadio(radio)
  }

  /** `handleDeferredQuerySuccess` with the pickers reset silently: pushes the canonical
      selection into the pickers and the preset selector and changes nothing else. */
  function DeferredQuerySuccess(cfg: Config, w: Widget): (s: Step)
    ensures s.widget.range == w.range && s.widget.store == w.store
    ensures DatePicker.GetDateValue(s.widget.fromInput) == if w.range.from == DEFAULT then None else Some(w.range.from)
    ensures DatePicker.GetDateValue(s.widget.toInput) == if w.range.to == DEFAULT then None else Some(w.range.to)
    ensures ResetRadio in s.effects <==> w.range.radio == DEFAULT
    ensures SetRadio(w.range.radio) in s.effects <==> w.range.radio != DEFAULT
    ensures forall e :: e in s.effects ==> !e.Persist? && e != ExecuteQuery
    ensures Inv(cfg, w) ==> Inv(cfg, s.widget)
  {
    var s1 := PushBound(cfg, w, From, w.range.from);
    var s2 := PushBound(cfg, s1.widget, To, w.range.to);
    Step(s2.widget, s1.effects + s2.effects + [PushRadio(w.range.radio)])
  }

  /** Pushing the selection out twice is pushing it once. */
  lemma DeferredQuerySuccessIdempotent(cfg: Config, w: Widget)
    ensures DeferredQuerySuccess(cfg, DeferredQuerySuccess(cfg, w).widget).widget
         == DeferredQuerySuccess(cfg, w).widget
  {
  }

  /** `handleDeferredQuerySuccess` as written: an unset bound's picker is reset with its
      `onChange` firing, so `handleInputChange` rebuilds the record from the pickers before
      the other bound has been pushed; the `to` and `radio` tests read the selection as it
      stands after that. */
  function DeferredQuerySuccessAsWritten(cfg: Config, w: Widget): (s: Step)
    ensures Synced(cfg, w) ==> Synced(cfg, s.widget)
    ensures w.range.from != DEFAULT && w.range.to != DEFAULT ==> s == DeferredQuerySuccess(cfg, w)
    ensures Inv(cfg, w) ==> Inv(cfg, s.widget)
  {
    var s1 := if w.range.from == DEFAULT then ResetInputAsWritten(cfg, w, From)
              else PushBound(cfg, w, From, w.range.from);
    var v := s1.widget;
    var s2 := if v.range.to == DEFAULT then ResetInputAsWritten(cfg, v, To)
              else PushBound(cfg, v, To, v.range.to);
    Step(s2.widget, s1.effects + s2.effects + [PushRadio(s2.widget.range.radio)])
  }

  /** As written, a selection with only `to` set whose `to` picker shows nothing (as after
      back/forward navigation) loses its `to` bound and requests a new query. */
  lemma DeferredAsWrittenDropsTo(cfg: Config, w: Widget)
    requires Inv(cfg, w)
    requires w.range.from == DEFAULT && w.range.to != DEFAULT
    requires DatePicker.GetDateValue(w.toInput) == None
    ensures DeferredQuerySuccessAsWritten(cfg, w).widget.range == EMPTY
    ensures Queries(DeferredQuerySuccessAsWritten(cfg, w).effects) >= 1
  {
    var s1 := ResetInputAsWritten(cfg, w, From);
    var s2 := ResetInputAsWritten(cfg, s1.widget, To);
    CountAppend(s1.effects, s2.effects, ExecuteQuery);
    CountAppend(s1.effects + s2.effects, [PushRadio(s2.widget.range.radio)], ExecuteQuery);
    assert DatePicker.ClearWasReset(w.toInput).date == None;
    assert s1.widget.store == DEFAULT_ARGS;
    ValidateDefaults(cfg.env);
  }

  /** The same loss from the initial state: navigating to a record with only a valid `to`
      bound, then the query's success handler. */
  lemma NavigationLosesTo(cfg: Config, t: int)
    requires t != DEFAULT && cfg.env.isValidDate(t)
    ensures var nav := ExternalChange(cfg, Init(), Args(Int(DEFAULT), Int(t), Int(DEFAULT)));
      && nav.widget.range == Range(DEFAULT, t, DEFAULT)
      && DeferredQuerySuccessAsWritten(cfg, nav.widget).widget.range == EMPTY
      && DeferredQuerySuccess(cfg, nav.widget).widget.range == Range(DEFAULT, t, DEFAULT)
  {
    InitialState(cfg);
    var nav := ExternalChange(cfg, Init(), Args(Int(DEFAULT), Int(t), Int(DEFAULT)));
    DeferredAsWrittenDropsTo(cfg, nav.widget);
  }

  /** `populateBreadcrumb`'s caption, reading the pickers' text values. */
  function Breadcrumb(cfg: Config, w: Widget): (b: Option<string>)
    ensures b.None? <==> HasEmptyState(w.range)
    ensures b.None? <==> GetQuery(cfg, w.range).None?
  {
    Caption(cfg, w.range, Some(Shown(cfg, w.fromInput)), Some(Shown(cfg, w.toInput)))
  }

  /** Once the selection has been pushed into the pickers, the caption read from the pickers
      is the one the fallback path builds from the formatted dates. */
  lemma BreadcrumbAfterSync(cfg: Config, w: Widget)
    requires cfg.fromWord == "from" && cfg.toWord == "to"
    ensures Breadcrumb(cfg, DeferredQuerySuccess(cfg, w).widget) == Caption(cfg, w.range, None, None)
  {
    var v := DeferredQuerySuccess(cfg, w).widget;
    if w.range.from != DEFAULT {
      assert Shown(cfg, v.fromInput) == cfg.env.dateForQuery(w.range.from);
    }
    if w.range.to != DEFAULT {
      assert Shown(cfg, v.toInput) == cfg.env.dateForQuery(w.range.to);
    }
  }

  /** The component is shown as active when the two text values together are non-empty. */
  function IsActive(cfg: Config, w: Widget): (active: bool)
    ensures active <==> Shown(cfg, w.fromInput) != "" || Shown(cfg, w.toInput) != ""
  {
    TruthyString(Shown(cfg, w.fromInput) + Shown(cfg, w.toInput))
  }

  /** Picking `from` then `to` from the initial state: each pick requests one query and the
      selection ends up holding both bounds with no preset. */
  lemma TwoEditsScenario(cfg: Config, d1: int, d2: int)
    requires cfg.env.parseTime(cfg.env.dateForQuery(d1)) == Int(d1) && cfg.env.dateForQuery(d1) != ""
    requires cfg.env.parseTime(cfg.env.dateForQuery(d2)) == Int(d2) && cfg.env.dateForQuery(d2) != ""
    requires d1 != DEFAULT && d2 != DEFAULT && cfg.env.isValidDate(d1) && cfg.env.isValidDate(d2)
    ensures var s1 := UserSelect(cfg, Init(), From, d1);
            var s2 := UserSelect(cfg, s1.widget, To, d2);
      && Queries(s1.effects) == 1 && Queries(s2.effects) == 1
      && s2.widget.range == Range(d1, d2, DEFAULT)
  {
    var s1 := UserSelect(cfg, Init(), From, d1);
    assert Shown(cfg, DatePicker.ClearWasReset(s1.widget.fromInput)) == cfg.env.dateForQuery(d1);
    assert s1.widget.range.from == d1;
    var s2 := UserSelect(cfg, s1.widget, To, d2);
    assert Shown(cfg, DatePicker.ClearWasReset(s2.widget.toInput)) == cfg.env.dateForQuery(d2);
  }

  /** Two edits then a preset: each action requests exactly one query, the expression after the
      edits bounds both fields, and the preset replaces both bounds and records its index. */
  lemma EditThenPresetScenario(cfg: Config, d1: int, d2: int, preset: Args)
    requires cfg.env.parseTime(cfg.env.dateForQuery(d1)) == Int(d1) && cfg.env.dateForQuery(d1) != ""
    requires cfg.env.parseTime(cfg.env.dateForQuery(d2)) == Int(d2) && cfg.env.dateForQuery(d2) != ""
    requires d1 != DEFAULT && d2 != DEFAULT && cfg.env.isValidDate(d1) && cfg.env.isValidDate(d2)
    requires preset.from.Int? && preset.to.Int? && preset.radio.Int?
    requires cfg.env.isValidDate(preset.from.value) && cfg.env.isValidDate(preset.to.value)
    requires cfg.env.isValidRadio(preset.radio.value)
    ensures var s1 := UserSelect(cfg, Init(), From, d1);
            var s2 := UserSelect(cfg, s1.widget, To, d2);
            var s3 := RadioSelect(cfg, s2.widget, preset);
      && Queries(s1.effects) == 1 && Queries(s2.effects) == 1 && Queries(s3.effects) == 1
      && GetQuery(cfg, s2.widget.range) == Some(cfg.fieldFrom + " >= " + cfg.env.dateForQuery(d1)
           + " AND " + cfg.fieldTo + " <= " + cfg.env.dateForQuery(d2))
      && s3.widget.range == Range(preset.from.value, preset.to.value, preset.radio.value)
  {
    TwoEditsScenario(cfg, d1, d2);
  }
}

=== FILE: js_values.dfy ===
/** JavaScript values the widget's code relies on: `undefined`-able values, numbers that may
    be `NaN`, strict inequality `!==`, truthiness and `Math.abs`. Only integral numbers are
    represented; every timestamp, index and year the widget handles is one. */
module JsValues {

  /** A value that may be `undefined`: `None` is `undefined`. */
  datatype Option<+T> = None | Some(value: T)

  /** A JavaScript number: `NaN`, or an integer. */
  datatype Num = NaN | Int(value: int)

  /** `a !== b` on numbers: `NaN` differs from everything, itself included. */
  predicate StrictNe(a: Num, b: Num) {
    a.NaN? || b.NaN? || a.value != b.value
  }

  /** A number is falsy when it is `0` or `NaN`. */
  predicate TruthyNum(n: Num) {
    n.Int? && n.value != 0
  }

  /** A string is falsy exactly when it is empty. */
  predicate TruthyString(s: string) {
    s != ""
  }

  /** `Math.abs(x)`, where an `undefined` argument yields `NaN`. */
  function Abs(x: Option<int>): (r: Num)
    ensures x.None? <==> r.NaN?
    ensures r.Int? ==> r.value >= 0 && (r.value == x.value || r.value == -x.value)
  {
    match x
    case None => NaN
    case Some(n) => Int(if n < 0 then -n else n)
  }

  /** `a + b` and `a - b`, with `NaN` absorbing. */
  function Add(a: Num, b: Num): Num {
    if a.Int? && b.Int? then Int(a.value + b.value) else NaN
  }

  function Sub(a: Num, b: Num): Num {
    if a.Int? && b.Int? then Int(a.value - b.value) else NaN
  }
}

=== FILE: range_filter.dfy ===
/** The range filter's values and everything derived from them without side effects: the
    canonical selection, the persisted record, how a persisted record is accepted, the query
    expression, the breadcrumb caption and the identifiers built from the component id. */
module RangeFilter {
  import opened JsValues
  import opened Strings

  /** `DateRangePicker.DEFAULT`: the "unset" value of `from`, `to` and `radio`. */
  const DEFAULT: int := -1

  /** The canonical selection: two timestamps and a preset index, each possibly `DEFAULT`. */
  datatype Range = Range(from: int, to: int, radio: int)

  const EMPTY: Range := Range(DEFAULT, DEFAULT, DEFAULT)

  /** The persisted record `{from, to, radio}`, each field as `Number(...)` reads it. */
  datatype Args = Args(from: Num, to: Num, radio: Num)

  const DEFAULT_ARGS: Args := Args(Int(DEFAULT), Int(DEFAULT), Int(DEFAULT))

  /** The library and preset helpers the component calls, taken as given:
      `isValidDate(n)` is `DateUtils.isValid(new Date(n))`, `dateForQuery(n)` is
      `DateUtils.dateForQuery(new Date(n))`, `parseTime(s)` is `new Date(s).getTime()` and
      `isValidRadio(n)` is the preset selector's `isValid(n)`. */
  datatype Helpers = Helpers(
    isValidDate: int -> bool,
    dateForQuery: int -> string,
    parseTime: string -> Num,
    isValidRadio: int -> bool)

  /** The component's options: its id, the two query fields, whether the preset selector is
      rendered, the lower-cased localized words for "From" and "To", and the helpers. */
  datatype Config = Config(
    id: string,
    fieldFrom: string,
    fieldTo: string,
    radioEnabled: bool,
    fromWord: string,
    toWord: string,
    env: Helpers)

  /** `hasEmptyState()`: neither bound is set; the preset index plays no part. */
  function HasEmptyState(r: Range): (e: bool)
    ensures e <==> r.(radio := DEFAULT) == EMPTY
  {
    r.from == DEFAULT && r.to == DEFAULT
  }

  /** A selection whose every set field passed its validity check. */
  predicate WellFormed(env: Helpers, r: Range) {
    && (r.from == DEFAULT || env.isValidDate(r.from))
    && (r.to == DEFAULT || env.isValidDate(r.to))
    && (r.radio == DEFAULT || env.isValidRadio(r.radio))
  }

  /** The record that stores a selection. */
  function ToArgs(r: Range): Args {
    Args(Int(r.from), Int(r.to), Int(r.radio))
  }

  /** One field of `handleQueryStateChanged`: the number when it is not `NaN` and passes
      `valid`, `DEFAULT` otherwise. */
  function Accept(n: Num, valid: int -> bool): (v: int)
    ensures v == DEFAULT || (n == Int(v) && valid(v))
    ensures n.Int? && valid(n.value) ==> v == n.value
  {
    if n.Int? && valid(n.value) then n.value else DEFAULT
  }

  /** `handleQueryStateChanged`: each field of the persisted record is accepted on its own,
      and the previous selection plays no part. */
  function Validate(env: Helpers, a: Args): (r: Range)
    ensures WellFormed(env, r)
    ensures r.from == DEFAULT || a.from == Int(r.from)
    ensures r.to == DEFAULT || a.to == Int(r.to)
    ensures r.radio == DEFAULT || a.radio == Int(r.radio)
    ensures a.from.Int? && env.isValidDate(a.from.value) ==> r.from == a.from.value
    ensures a.to.Int? && env.isValidDate(a.to.value) ==> r.to == a.to.value
    ensures a.radio.Int? && env.isValidRadio(a.radio.value) ==> r.radio == a.radio.value
  {
    Range(
      Accept(a.from, env.isValidDate),
      Accept(a.to, env.isValidDate),
      Accept(a.radio, env.isValidRadio))
  }

  /** A well-formed selection survives a trip through the persisted record unchanged. */
  lemma ValidateToArgs(env: Helpers, r: Range)
    ensures Validate(env, ToArgs(r)) == r <==> WellFormed(env, r)
  {
  }

  /** Accepting an accepted record changes nothing. */
  lemma ValidateIdempotent(env: Helpers, a: Args)
    ensures Validate(env, ToArgs(Validate(env, a))) == Validate(env, a)
  {
    ValidateToArgs(env, Validate(env, a));
  }

  /** The all-`DEFAULT` record is accepted as the empty selection whatever the helpers say. */
  lemma ValidateDefaults(env: Helpers)
    ensures Validate(env, DEFAULT_ARGS) == EMPTY
  {
  }

  /** A record whose `from` is not a number, whose `to` is the sentinel itself and whose
      `radio` names no preset is accepted as the empty selection. */
  lemma MalformedRecordIsEmpty(env: Helpers)
    requires !env.isValidRadio(99)
    ensures Validate(env, Args(NaN, Int(DEFAULT), Int(99))) == EMPTY
  {
  }

  /** Each field of the result depends on the same field of the record only. */
  lemma ValidateFieldwise(env: Helpers, a: Args, b: Args)
    ensures a.from == b.from ==> Validate(env, a).from == Validate(env, b).from
    ensures a.to == b.to ==> Validate(env, a).to == Validate(env, b).to
    ensures a.radio == b.radio ==> Validate(env, a).radio == Validate(env, b).radio
  {
  }

  /** The clauses of the query expression, `from` first. */
  function QueryClauses(cfg: Config, r: Range): seq<string> {
    (if r.from != DEFAULT then [cfg.fieldFrom + " >= " + cfg.env.dateForQuery(r.from)] else [])
    + (if r.to != DEFAULT then [cfg.fieldTo + " <= " + cfg.env.dateForQuery(r.to)] else [])
  }

  /** `getQuery()`: no expression for the empty selection; otherwise the `from` clause when
      `from` is set and the `to` clause when `to` is set, joined by `AND`. */
  function GetQuery(cfg: Config, r: Range): (q: Option<string>)
    ensures q.None? <==> HasEmptyState(r)
    ensures r.from != DEFAULT && r.to == DEFAULT
      ==> q == Some(cfg.fieldFrom + " >= " + cfg.env.dateForQuery(r.from))
    ensures r.from == DEFAULT && r.to != DEFAULT
      ==> q == Some(cfg.fieldTo + " <= " + cfg.env.dateForQuery(r.to))
    ensures r.from != DEFAULT && r.to != DEFAULT
      ==> q == Some(cfg.fieldFrom + " >= " + cfg.env.dateForQuery(r.from)
                    + " AND " + cfg.fieldTo + " <= " + cfg.env.dateForQuery(r.to))
  {
    if HasEmptyState(r) then None
    else
      var clauses := QueryClauses(cfg, r);
      var to := cfg.env.dateForQuery(r.to);
      JoinOne(clauses[0], " AND ");
      JoinTwo(clauses[0], clauses[|clauses| - 1], " AND ");
      Assoc(clauses[0] + " AND ", cfg.fieldTo + " <= ", to);
      Assoc(clauses[0] + " AND ", cfg.fieldTo, " <= ");
      Some(Join(clauses, " AND "))
  }

  /** The date texts an expression bounds: `from` and `to`, each possibly absent. */
  datatype Bounds = Bounds(from: Option<string>, to: Option<string>)

  /** Reads an expression of the shape `GetQuery` produces back into its bounds. */
  function ParseQuery(cfg: Config, q: string): Option<Bounds> {
    var t := Split(q, ' ');
    if |t| == 3 && t[0] == cfg.fieldFrom && t[1] == ">=" then Some(Bounds(Some(t[2]), None))
    else if |t| == 3 && t[0] == cfg.fieldTo && t[1] == "<=" then Some(Bounds(None, Some(t[2])))
    else if |t| == 7 && t[0] == cfg.fieldFrom && t[1] == ">=" && t[3] == "AND"
         && t[4] == cfg.fieldTo && t[5] == "<=" then Some(Bounds(Some(t[2]), Some(t[6])))
    else None
  }

  predicate SpaceFree(s: string) {
    ' ' !in s
  }

  /** A three-word clause is its words joined by single spaces. */
  lemma ClauseWords(field: string, op: string, date: string)
    ensures Join([field, op, date], " ") == field + (" " + op + " ") + date
  {
    JoinAppend([field], [op, date], " ");
    JoinTwo(op, date, " ");
    assert [field] + [op, date] == [field, op, date];
  }

  /** Seven words join as the first three, `AND`, and the last three. */
  lemma JoinSeven(x: string, f: string, y: string, g: string)
    ensures Join([x, ">=", f, "AND", y, "<=", g], " ")
         == Join([x, ">=", f], " ") + " " + ("AND" + " " + Join([y, "<=", g], " "))
  {
    var from3 := [x, ">=", f];
    var to3 := [y, "<=", g];
    JoinAppend(from3, ["AND"] + to3, " ");
    JoinAppend(["AND"], to3, " ");
    assert from3 + (["AND"] + to3) == [x, ">=", f, "AND", y, "<=", g];
  }

  /** A two-clause expression is its seven words joined by single spaces. */
  lemma SevenWords(x: string, f: string, y: string, g: string)
    ensures Join([x, ">=", f, "AND", y, "<=", g], " ") == x + " >= " + f + " AND " + y + " <= " + g
  {
    JoinSeven(x, f, y, g);
    ClauseWords(x, ">=", f);
    ClauseWords(y, "<=", g);
    var a := x + " >= " + f;
    assert " " + ("AND" + " " + (y + " <= " + g)) == " AND " + (y + " <= " + g);
    Assoc(a, " AND ", y + " <= " + g);
    Assoc(a + " AND ", y + " <= ", g);
    Assoc(a + " AND ", y, " <= ");
  }

  /** The expression is its words joined by single spaces. */
  lemma QueryWords(cfg: Config, r: Range)
    requires !HasEmptyState(r)
    ensures var f := cfg.env.dateForQuery(r.from);
            var g := cfg.env.dateForQuery(r.to);
            GetQuery(cfg, r).value == Join(
              if r.to == DEFAULT then [cfg.fieldFrom, ">=", f]
              else if r.from == DEFAULT then [cfg.fieldTo, "<=", g]
              else [cfg.fieldFrom, ">=", f, "AND", cfg.fieldTo, "<=", g], " ")
  {
    var f := cfg.env.dateForQuery(r.from);
    var g := cfg.env.dateForQuery(r.to);
    if r.to == DEFAULT {
      ClauseWords(cfg.fieldFrom, ">=", f);
    } else if r.from == DEFAULT {
      ClauseWords(cfg.fieldTo, "<=", g);
    } else {
      SevenWords(cfg.fieldFrom, f, cfg.fieldTo, g);
    }
  }

  /** Reading the expression back recovers exactly the formatted bounds that are set, as long
      as neither field name nor any formatted date contains a space. */
  lemma {:induction false} QueryRoundTrip(cfg: Config, r: Range)
    requires !HasEmptyState(r)
    requires SpaceFree(cfg.fieldFrom) && SpaceFree(cfg.fieldTo)
    requires r.from != DEFAULT ==> SpaceFree(cfg.env.dateForQuery(r.from))
    requires r.to != DEFAULT ==> SpaceFree(cfg.env.dateForQuery(r.to))
    ensures ParseQuery(cfg, GetQuery(cfg, r).value) == Some(Bounds(
      if r.from != DEFAULT then Some(cfg.env.dateForQuery(r.from)) else None,
      if r.to != DEFAULT then Some(cfg.env.dateForQuery(r.to)) else None))
  {
    var f := cfg.env.dateForQuery(r.from);
    var g := cfg.env.dateForQuery(r.to);
    QueryWords(cfg, r);
    var words := if r.to == DEFAULT then [cfg.fieldFrom, ">=", f]
      else if r.from == DEFAULT then [cfg.fieldTo, "<=", g]
      else [cfg.fieldFrom, ">=", f, "AND", cfg.fieldTo, "<=", g];
    assert " " == [' '];
    SplitJoin(words, ' ');
  }

  /** `handleBuildingQuery`: adds the expression to the query's advanced expression when there
      is one, and leaves it alone otherwise. */
  function BuildingQuery(cfg: Config, r: Range, advanced: seq<string>): (out: seq<string>)
    ensures |advanced| <= |out| <= |advanced| + 1
    ensures out[..|advanced|] == advanced
    ensures out == advanced <==> HasEmptyState(r)
    ensures |out| > |advanced| ==> Some(out[|advanced|]) == GetQuery(cfg, r)
  {
    match GetQuery(cfg, r)
    case Some(q) => advanced + [q]
    case None => advanced
  }

  /** One clause of the breadcrumb: the localized word and the input's text, or, when reading
      the input throws, the fixed word and the formatted date. */
  function CaptionClause(word: string, fallbackWord: string, shown: Option<string>, date: string): (c: string)
    ensures shown.Some? ==> c == word + " " + shown.value
    ensures shown.None? ==> c == fallbackWord + " " + date
  {
    match shown
    case Some(text) => word + " " + text
    case None => fallbackWord + " " + date
  }

  function FromClause(cfg: Config, r: Range, shown: Option<string>): string {
    CaptionClause(cfg.fromWord, "from", shown, cfg.env.dateForQuery(r.from))
  }

  function ToClause(cfg: Config, r: Range, shown: Option<string>): string {
    CaptionClause(cfg.toWord, "to", shown, cfg.env.dateForQuery(r.to))
  }

  /** The breadcrumb caption of `populateBreadcrumb`: none for the empty selection; otherwise
      the `from` clause when `from` is set, then the `to` clause when `to` is set, joined by
      `' - '`. `fromShown`/`toShown` are the inputs' text values, `None` when reading throws. */
  function Caption(cfg: Config, r: Range, fromShown: Option<string>, toShown: Option<string>): (c: Option<string>)
    ensures c.None? <==> HasEmptyState(r)
    ensures r.from != DEFAULT && r.to == DEFAULT ==> c == Some(FromClause(cfg, r, fromShown))
    ensures r.from == DEFAULT && r.to != DEFAULT ==> c == Some(ToClause(cfg, r, toShown))
    ensures r.from != DEFAULT && r.to != DEFAULT
      ==> c == Some(FromClause(cfg, r, fromShown) + " - " + ToClause(cfg, r, toShown))
  {
    if HasEmptyState(r) then None
    else
      var range := (if r.from != DEFAULT then [FromClause(cfg, r, fromShown)] else [])
        + (if r.to != DEFAULT then [ToClause(cfg, r, toShown)] else []);
      JoinOne(range[0], " - ");
      JoinTwo(range[0], range[|range| - 1], " - ");
      Some(Join(range, " - "))
  }

  /** How the fallback caption words a pair of date texts. */
  function DescribeBounds(b: Bounds): Option<string> {
    match (b.from, b.to)
    case (None, None) => None
    case (Some(f), None) => Some("from " + f)
    case (None, Some(t)) => Some("to " + t)
    case (Some(f), Some(t)) => Some("from " + f + " - to " + t)
  }

  /** The breadcrumb and the query expression exist together, and the fallback caption words
      exactly the date texts that reading the expression back recovers. */
  lemma CaptionMatchesQuery(cfg: Config, r: Range)
    requires SpaceFree(cfg.fieldFrom) && SpaceFree(cfg.fieldTo)
    requires r.from != DEFAULT ==> SpaceFree(cfg.env.dateForQuery(r.from))
    requires r.to != DEFAULT ==> SpaceFree(cfg.env.dateForQuery(r.to))
    ensures Caption(cfg, r, None, None).None? <==> GetQuery(cfg, r).None?
    ensures GetQuery(cfg, r).Some? ==>
      var b := ParseQuery(cfg, GetQuery(cfg, r).value);
      b.Some? && Caption(cfg, r, None, None) == DescribeBounds(b.value)
  {
    if !HasEmptyState(r) {
      QueryRoundTrip(cfg, r);
      var f := cfg.env.dateForQuery(r.from);
      var g := cfg.env.dateForQuery(r.to);
      assert FromClause(cfg, r, None) == "from " + f;
      assert ToClause(cfg, r, None) == "to " + g;
      var b := ParseQuery(cfg, GetQuery(cfg, r).value).value;
      if r.from != DEFAULT && r.to != DEFAULT {
        assert b == Bounds(Some(f), Some(g));
        assert DescribeBounds(b) == Some("from " + f + " - to " + g);
        assert Caption(cfg, r, None, None) == Some("from " + f + " - " + ("to " + g));
        Assoc("from " + f + " - ", "to ", g);
        assert "from " + f + " - " + "to " == "from " + f + " - to ";
      } else if r.from != DEFAULT {
        assert b == Bounds(Some(f), None);
      } else {
        assert b == Bounds(None, Some(g));
      }
    }
  }

  /** `getId(extra)`: the component id, followed by `-extra` when `extra` is truthy. */
  function GetId(id: string, extra: Option<string>): (s: string)
    ensures extra.None? || extra.value == "" ==> s == id
    ensures extra.Some? && extra.value != "" ==> s == id + "-" + extra.value
  {
    match extra
    case Some(e) => if TruthyString(e) then id + "-" + e else id
    case None => id
  }

  /** The suffix naming the persisted attribute. */
  const ATTRIBUTE_SUFFIX: string := ":rangePicker"

  /** The name of the persisted attribute: the id followed by `:rangePicker`. */
  function AttributeName(id: string): (s: string)
    ensures |s| == |id| + |ATTRIBUTE_SUFFIX|
    ensures s[..|id|] == id && s[|id|..] == ATTRIBUTE_SUFFIX
  {
    id + ATTRIBUTE_SUFFIX
  }

  /** Distinct ids give distinct attribute names, so two components never share one. */
  lemma AttributeNameInjective(a: string, b: string)
    ensures AttributeName(a) == AttributeName(b) ==> a == b
  {
    if AttributeName(a) == AttributeName(b) {
      assert |a| == |b|;
      assert AttributeName(a)[..|a|] == a;
    }
  }

  /** The two input ids and the attribute name of one component are pairwise distinct. */
  lemma InputIdsDistinct(id: string)
    ensures GetId(id, Some("start")) != GetId(id, Some("end"))
    ensures GetId(id, Some("start")) != AttributeName(id)
    ensures GetId(id, Some("end")) != AttributeName(id)
  {
    assert GetId(id, Some("start"))[|id| + 1] == 's';
    assert GetId(id, Some("end"))[|id| + 1] == 'e';
    assert GetId(id, Some("start"))[|id|] == '-';
    assert AttributeName(id)[|id|] == ':';
  }

  /** The `id` option's post-processing: the given id when it is truthy, otherwise the
      distinct field names joined by `-`. */
  function DefaultId(value: Option<string>, fieldFrom: string, fieldTo: string): (s: string)
    ensures value.Some? && value.value != "" ==> s == value.value
    ensures (value.None? || value.value == "") && fieldFrom == fieldTo ==> s == fieldFrom
    ensures (value.None? || value.value == "") && fieldFrom != fieldTo ==> s == fieldFrom + "-" + fieldTo
  {
    if value.Some? && TruthyString(value.value) then value.value
    else
      var fields := Unique([fieldFrom, fieldTo]);
      UniquePair(fieldFrom, fieldTo);
      JoinOne(fieldFrom, "-");
      JoinTwo(fieldFrom, fieldTo, "-");
      Join(fields, "-")
  }
}

=== FILE: strings.dfy ===
/** `Array.prototype.join`, a one-character `split` that undoes it, and `_.unique`. */
module Strings {

  /** `parts.join(sep)`. */
  function Join(parts: seq<string>, sep: string): string
    decreases |parts|
  {
    if |parts| == 0 then ""
    else if |parts| == 1 then parts[0]
    else parts[0] + sep + Join(parts[1..], sep)
  }

  /** Concatenation regroups freely. */
  lemma Assoc(a: string, b: string, c: string)
    ensures a + (b + c) == a + b + c
  {
  }

  /** A single piece joins to itself. */
  lemma JoinOne(a: string, sep: string)
    ensures Join([a], sep) == a
  {
  }

  /** Two pieces join around one separator. */
  lemma JoinTwo(a: string, b: string, sep: string)
    ensures Join([a, b], sep) == a + sep + b
  {
    assert [a, b][1..] == [b];
  }

  /** Joining two non-empty lists is joining each and putting a separator between them. */
  lemma {:induction false} JoinAppend(xs: seq<string>, ys: seq<string>, sep: string)
    requires |xs| >= 1 && |ys| >= 1
    ensures Join(xs + ys, sep) == Join(xs, sep) + sep + Join(ys, sep)
    decreases |xs|
  {
    if |xs| == 1 {
      assert (xs + ys)[1..] == ys;
    } else {
      JoinAppend(xs[1..], ys, sep);
      assert (xs + ys)[1..] == xs[1..] + ys;
    }
  }

  /** `s.split(c)`: the maximal pieces of `s` between occurrences of `c`; never empty. */
  function Split(s: string, c: char): (parts: seq<string>)
    ensures |parts| >= 1
    decreases |s|
  {
    if |s| == 0 then [""]
    else
      var rest := Split(s[1..], c);
      if s[0] == c then [""] + rest
      else [[s[0]] + rest[0]] + rest[1..]
  }

  /** A piece without the separator splits to itself. */
  lemma {:induction false} SplitWithoutSeparator(t: string, c: char)
    requires c !in t
    ensures Split(t, c) == [t]
    decreases |t|
  {
    if |t| > 0 {
      assert c !in t[1..] by {
        forall i | 0 <= i < |t[1..]| ensures t[1..][i] != c {
          assert t[1..][i] == t[i + 1];
        }
      }
      SplitWithoutSeparator(t[1..], c);
      assert [t[0]] + t[1..] == t;
    }
  }

  /** Splitting stops at the first separator after a separator-free piece. */
  lemma {:induction false} SplitAfterPiece(t: string, rest: string, c: char)
    requires c !in t
    ensures Split(t + [c] + rest, c) == [t] + Split(rest, c)
    decreases |t|
  {
    var s := t + [c] + rest;
    if |t| == 0 {
      assert s == [c] + rest;
      assert s[1..] == rest;
    } else {
      assert c !in t[1..] by {
        forall i | 0 <= i < |t[1..]| ensures t[1..][i] != c {
          assert t[1..][i] == t[i + 1];
        }
      }
      SplitAfterPiece(t[1..], rest, c);
      assert s[1..] == t[1..] + [c] + rest;
      assert s[0] == t[0] != c;
      assert [t[0]] + t[1..] == t;
    }
  }

  /** `Split` undoes `Join` when no piece contains the separator. */
  lemma {:induction false} SplitJoin(parts: seq<string>, c: char)
    requires |parts| >= 1
    requires forall i :: 0 <= i < |parts| ==> c !in parts[i]
    ensures Split(Join(parts, [c]), c) == parts
    decreases |parts|
  {
    if |parts| == 1 {
      SplitWithoutSeparator(parts[0], c);
    } else {
      var tail := parts[1..];
      assert forall i :: 0 <= i < |tail| ==> c !in tail[i] by {
        forall i | 0 <= i < |tail| ensures c !in tail[i] {
          assert tail[i] == parts[i + 1];
        }
      }
      SplitJoin(tail, c);
      SplitAfterPiece(parts[0], Join(tail, [c]), c);
      assert [parts[0]] + tail == parts;
    }
  }

  /** `_.unique` of two values keeps both only when they differ. */
  lemma UniquePair(a: string, b: string)
    ensures Unique([a, b]) == if a == b then [a] else [a, b]
  {
    assert [a, b][..1] == [a];
    assert [a][..0] == [];
  }

  /** The position of the first occurrence of `x` in `xs`. */
  function FirstIndex<T(==)>(xs: seq<T>, x: T): (k: nat)
    requires x in xs
    ensures k < |xs| && xs[k] == x && x !in xs[..k]
    decreases |xs|
  {
    if xs[0] == x then 0
    else
      var k := 1 + FirstIndex(xs[1..], x);
      assert xs[..k] == [xs[0]] + xs[1..][..k - 1];
      k
  }

  /** Appending after a value does not move its first occurrence. */
  lemma FirstIndexPrefix<T>(xs: seq<T>, ys: seq<T>, x: T)
    requires x in xs
    ensures FirstIndex(xs + ys, x) == FirstIndex(xs, x)
  {
    var k := FirstIndex(xs, x);
    var m := FirstIndex(xs + ys, x);
    assert (xs + ys)[k] == x;
    assert (xs + ys)[..k] == xs[..k];
  }

  /** A value appended to a list without it first occurs at the end. */
  lemma FirstIndexLast<T>(xs: seq<T>, y: T)
    requires y !in xs
    ensures FirstIndex(xs + [y], y) == |xs|
  {
    var k := FirstIndex(xs + [y], y);
  }

  /** Extending a list keeps `front`'s order of first occurrence, and appends `last` after
      every element of `front` when it is new. */
  lemma UniqueStepOrder<T>(xs: seq<T>, last: T, front: seq<T>)
    requires forall x :: x in front <==> x in xs
    requires forall i, j :: 0 <= i < j < |front| ==> FirstIndex(xs, front[i]) < FirstIndex(xs, front[j])
    ensures last in front ==>
      forall i, j :: 0 <= i < j < |front| ==> FirstIndex(xs + [last], front[i]) < FirstIndex(xs + [last], front[j])
    ensures last !in front ==>
      var r := front + [last];
      forall i, j :: 0 <= i < j < |r| ==> FirstIndex(xs + [last], r[i]) < FirstIndex(xs + [last], r[j])
  {
    forall i | 0 <= i < |front|
      ensures FirstIndex(xs + [last], front[i]) == FirstIndex(xs, front[i])
    {
      FirstIndexPrefix(xs, [last], front[i]);
    }
    if last !in front {
      FirstIndexLast(xs, last);
      var r := front + [last];
      forall i, j | 0 <= i < j < |r|
        ensures FirstIndex(xs + [last], r[i]) < FirstIndex(xs + [last], r[j])
      {
        assert r[i] == front[i];
        if j < |front| {
          assert r[j] == front[j];
        }
      }
    }
  }

  /** `_.unique(xs)`: the elements of `xs` in order of first occurrence, each once. */
  function Unique<T(==,!new)>(xs: seq<T>): (r: seq<T>)
    ensures forall x :: x in r <==> x in xs
    ensures forall i, j :: 0 <= i < j < |r| ==> r[i] != r[j]
    ensures forall i, j :: 0 <= i < j < |r| ==> FirstIndex(xs, r[i]) < FirstIndex(xs, r[j])
    ensures |xs| > 0 ==> |r| > 0 && r[0] == xs[0]
    decreases |xs|
  {
    if |xs| == 0 then []
    else
      var front := Unique(xs[..|xs| - 1]);
      var last := xs[|xs| - 1];
      assert xs == xs[..|xs| - 1] + [last];
      UniqueStepOrder(xs[..|xs| - 1], last, front);
      if last in front then front else front + [last]
  }
}
